=== FILE: README.md ===
# lightweight-router, modelled in Dafny

A model of the client-side router in `src/router.js`. The router intercepts
clicks on internal links, pushes the new URL on the session history and raises
a synthetic `popstate`. The popstate handler then finds or creates the
`<route>` for the new path. If that route is empty, it fills it from a
page-wide cache of fetched HTML, fetching on a miss. Finally it shows only that
route and tells the route-change handler. Links are prefetched when they
scroll into view, or on hover when they opt in with `prefetch="onHover"`.

The model is functional. An immutable router state holds:

- the routes, as `(path, content, visibility)` records in document order;
- the cache, a map from full href to text;
- the flag that records whether the `<router>` container was synthesized;
- whether a route-change handler is set, and the paths it was called with.

Every operation is a pure function of the state and of oracles. The network
is an oracle `Request -> Reply`: a reply is either a response
`(status, text)` or a rejection. Parsing and rendering fetched HTML is an
oracle `string -> string`. URL parsing is a function from an href to
`Option<Url>`, where None means the URL constructor throws. The popstate and
hover handlers are async and await their fetches, and the prefetches an
observer callback starts settle later; the model treats each event, with the
fetches it starts, as one atomic step. An element carries its DOM node identity besides the attributes
the router reads, so two anchors with the same href are still two elements,
and unobserving one leaves the other observed.

Modules:

- `Text`: `startsWith`/`endsWith`, and decimal printing of a status with its
  read-back.
- `LinkClassifier`: `isInternalLink`.
- `Fetcher`: `fetchWithFallback` and `fetchContent`, with the exact list of
  requests each sends.
- `ContentCache`: `linkData` and `fetchAndSaveContent`.
- `Routes`: path normalization, route lookup, and show-only-one.
- `Navigation`: `handlePopState` and the bootstrap branch of `startRouter`.
- `Triggers`: the click, observe, intersection and hover decisions.
- `Session`: start-up followed by any sequence of events, with the invariants
  that hold throughout.

Two behaviours run against what a reader might expect. The model follows the
code in both:

- For a same-site href to the current path, line 163 returns
  `currentPath !== targetPath || !url.hash`. So a link without a fragment is
  internal, and a link with a fragment is not.
  `LinkClassifier.SamePageFragmentIsNotInternal` shows both cases.
- A router synthesized on the client never sends the fragment
  `POST <url>` with body `onlyRoute`: lines 185-189 skip it whenever
  `routerCreatedManually` is set. `Session.SynthesizedRouterUsesGet` proves
  that such a router fetches a new route with exactly one GET.

Other behaviours that follow from the code:

- The bootstrap route is keyed by the raw pathname, while navigation drops
  one trailing slash. After starting at `/` or at any path ending in `/`,
  navigating back to it never reuses the initial route. It appends a second
  route and fetches again (`Session.InitialRouteNotReusedAfterSlash`).
- A cached empty string counts as a miss and is fetched again. An error
  placeholder is never empty, so a failed URL stays cached for the session.
- A rejected POST is not retried with a GET. The rejection propagates, and a
  popstate cycle stops after creating the route: nothing is shown and the
  handler is not called.
- Within one intersection callback, every cache test sees the cache as it was
  when the callback began. That is because the prefetches it starts write only
  after their fetches settle, so two entries for one uncached href start two
  fetches.

## Model

| member | source | states |
|---|---|---|
| Text.DecimalRoundTrip | src/router.js:178 | the decimal text the status placeholder prints reads back as the status |
| LinkClassifier.StripWww | src/router.js:153-154 | one leading "www." is removed from a hostname, and nothing else changes |
| LinkClassifier.IsInternalLink | src/router.js:145-167 | these hrefs are not internal: empty ones, `#` ones, `javascript:` ones, and unresolvable ones; any other href starting with `/` is internal; a resolved href on another site is not; on the same site, a different path is internal, and the same path is internal exactly when there is no fragment |
| LinkClassifier.ProtocolRelativeIsInternal | src/router.js:147 | `//host/...` is internal whatever host it names |
| LinkClassifier.WwwInsensitive | src/router.js:153-157 | adding "www." to a target host that does not already start with "www." does not change the verdict |
| LinkClassifier.DoubleWwwIsAnotherSite | src/router.js:153-157 | only one "www." is stripped, so `www.www.example.com` is another site than `example.com` |
| LinkClassifier.SamePageFragmentIsNotInternal | src/router.js:160-163 | a link to the current path is internal without a fragment and not internal with one |
| Fetcher.FetchWithFallback | src/router.js:184-190 | one or two requests, all to the url; the POST with body `onlyRoute` comes first exactly when the router was not synthesized; a GET follows only after an answered non-ok POST; the result is the reply to the last request; a non-ok result always comes from the GET |
| Fetcher.HttpErrorText | src/router.js:177-178 | the placeholder is the fixed prefix followed by at least one digit, with no leading zero unless the status is 0, reading back as the status: exactly `${status}` |
| Fetcher.HttpErrorTextInjective | src/router.js:178 | different statuses give different placeholders |
| Fetcher.FetchContent | src/router.js:175-181 | sends the same requests as the fallback fetch; fails only when the last request is rejected; returns the body of an ok response and the placeholder for a non-ok one |
| Fetcher.EmptyContentIsOkAndEmpty | src/router.js:177-180 | empty content comes only from an ok response with an empty body |
| Fetcher.NotFoundPlaceholder | src/router.js:175-190 | a 404 on the GET, whatever its body, after a non-ok fragment POST when one is sent, yields exactly `Couldn't fetch the route - HTTP error! status: 404` |
| ContentCache.CompletePrefetch | src/router.js:74 | the write after the await stores the fetched text under the href, keeps every other entry, and writes nothing on rejection |
| ContentCache.FetchAndSave | src/router.js:71-76 | a hit sends nothing and changes nothing; a miss sends the fetch's requests and stores its text; other entries and earlier hits stay; the cache stays faithful to the network |
| ContentCache.SecondPrefetchIsFree | src/router.js:72-75 | a second prefetch of a href that stored non-empty text sends no request |
| Routes.Normalize | src/router.js:7 | the key is the pathname, or the pathname minus its one trailing slash when it has one |
| Routes.NormalizeRoot | src/router.js:7 | `/` normalizes to the empty key |
| Routes.NormalizeDropsOneSlash | src/router.js:7 | only one trailing slash is dropped |
| Routes.Find | src/router.js:10 | the lookup returns the first route with the key, or reports that none has it |
| Routes.FindStableUnderExtension | src/router.js:10-18 | appending routes does not change where a present key is found |
| Routes.ShowOnly | src/router.js:58-59 | exactly the chosen route is visible and all others are hidden; paths and contents are untouched |
| Navigation.FindOrAppend | src/router.js:10-18 | a route is appended, empty and under the key, only when no route has the key; existing routes are kept and unique keys stay unique |
| Navigation.Populate | src/router.js:20-55 | only the current route's content changes, and only when it was empty; it becomes the rendering of the cache entry for the full href; an empty route sends the fetch's requests exactly when the cache misses, an empty entry counting as a miss; earlier hits are never overwritten; a rejection changes nothing |
| Navigation.Navigate | src/router.js:4-67 | the store gains a route only when none has the normalized key; a completed cycle leaves exactly that route visible and calls the handler once with the normalized path; only a rejected fetch stops the cycle |
| Navigation.NavigateKeepsPaths | src/router.js:10-18 | existing routes keep their paths and places |
| Navigation.NavigateKeepsKeysUnique | src/router.js:10-18 | unique keys stay unique |
| Navigation.NavigateFillsOnlyCurrent | src/router.js:20-41 | other routes' content is untouched, and the current route's content changes only when it was empty |
| Navigation.NavigatePopulatedIsFree | src/router.js:21 | a populated route is returned to with no request and the cache unchanged, and the cycle completes |
| Navigation.NavigateRejectedKeepsVisibility | src/router.js:27 | a cycle whose fetch rejected changes no visibility and leaves the cache unchanged |
| Navigation.NavigateCacheDiscipline | src/router.js:21-29 | requests are sent exactly when the route is empty and the full href misses, an empty entry counting as a miss; the cache gains at most that href; hits are never overwritten; the filled route renders that entry |
| Navigation.Bootstrap | src/router.js:213-226 | with no router, the body becomes one route under the raw pathname and the flag is set; an existing router is kept and the flag is clear; the cache starts empty |
| Triggers.ClosestAnchor | src/router.js:108 | the result is the first anchor from the target up through its ancestors, or none when there is no anchor |
| Triggers.HandleClick | src/router.js:107-117 | a click is intercepted exactly when the closest anchor has a non-empty, internal, same-origin href, and the href pushed is that href |
| Triggers.OtherOriginIsIgnored | src/router.js:109 | an anchor of another origin is never intercepted |
| Triggers.ExternalHostIsIgnored | src/router.js:107-117 | an anchor whose absolute (not `/`-prefixed) href resolves to another site is never intercepted |
| Triggers.ObserveLinks | src/router.js:119-143 | exactly the links without `prefetch="onHover"` that are internal are observed, and none when saveData is on |
| Triggers.HandleIntersection | src/router.js:78-98 | each intersecting uncached link has its prefetch started and is unobserved; a cached link stays observed; only links with an intersecting entry can be unobserved; only uncached intersecting hrefs are fetched |
| Triggers.Delivered | src/router.js:238-247 | the observer created at start-up hands its callback exactly the entries whose target is under observation |
| Triggers.HoverLinksAreNotObserved | src/router.js:129 | a hover-prefetch anchor is never under visibility observation |
| Session.Start | src/router.js:193-247 | the store and handler flag are those of the bootstrap: the existing router's routes, or one route holding the body under the raw pathname; the synthesized flag is set exactly when the router is synthesized; the cache and handler log start empty; the observed set is exactly the eligible anchors |
| Session.CompleteAll | src/router.js:88-92 | settling a batch of started prefetches only adds the started hrefs, caches each one that fulfils, and keeps the cache faithful |
| Session.HoverEffect | src/router.js:100-105 | a hover changes only the cache, and only for an uncached internal hover-prefetch anchor; that href then holds its fetched text |
| Session.IntersectEffect | src/router.js:78-98 | an observer callback changes only the cache and the observed set; among observed links, an intersecting uncached one is unobserved, one whose fetch fulfils ends up cached, and a cached one stays observed; no link is unobserved without an intersecting entry for it |
| Session.StartEstablishesInv | src/router.js:213-226 | after any start-up the cache is faithful; keys are unique when the router is synthesized, or when the server-rendered router does not repeat a path, which start-up does not check |
| Session.ApplyDispatch | src/router.js:228-236 | each event goes to its listener: only a popstate changes the routes and the handler log, only an observer callback changes the observed set, a hover that does not prefetch changes nothing, and the flags never change |
| Session.HoverNeedsTheAnchorItself | src/router.js:231-235 | the hover listener tests the event target itself, so hovering anything but a `prefetch="onHover"` anchor, including an element inside one, changes nothing |
| Session.HoverSkipsCachedOrExternal | src/router.js:100-105 | a hover over a cached or non-internal href changes nothing |
| Session.ApplyKeepsHits | src/router.js:26-28 | whatever the network answers, no event overwrites a non-empty cache entry |
| Session.ApplyKeepsKeysUnique | src/router.js:10-18 | no event makes unique route keys repeat |
| Session.ApplyPreserves | src/router.js:4-105 | every event keeps the cache faithful; the store only grows; non-empty routes never change; the flags stay; cache entries never change, empty ones included, because a repeated request gets the same answer |
| Session.RunPreserves | src/router.js:4-105 | over any sequence of events the cache stays faithful, unique keys stay unique, and the later session extends the earlier one |
| Session.RunKeepsHits | src/router.js:26-28 | over any sequence of events, whatever the network answers, non-empty cache entries stay as they are |
| Session.ReturnIsFree | src/router.js:10-21 | from any start, even a server router that repeats a path, going back to a populated path after any events sends no request and shows the markup rendered the first time |
| Session.SynthesizedRouterUsesGet | src/router.js:185-189 | a router synthesized on the client fetches a new route with a single GET |
| Session.ServerRouterPostsFirst | src/router.js:185-187 | with a server-rendered router, an empty route is first requested with the fragment POST |
| Session.InitialRouteReused | src/router.js:7-10 | the initial route is reused without a request when its pathname has no trailing slash and the page body is non-empty |
| Session.InitialRouteNotReusedAfterSlash | src/router.js:214-220 | when the initial pathname ends in a slash, going back to it appends a second route and fetches |

## Left out

- HTML parsing, `<title>` extraction, `innerHTML` serialization and script re-instantiation (lines 31-54): one opaque rendering function stands in for them. The document title is not part of the state.
- The loading class, the injected stylesheet, `scrollTo` and debug logging (lines 2-3, 6, 61-62, 198-211): no state decision depends on them.
- `history.pushState`, `dispatchEvent`, listener registration and the `IntersectionObserver` object (lines 115-116, 228-246): the model keeps only the decisions taken before these calls. An intercepted click becomes the `PopState` event its caller feeds back in.
- Overlapping async work: racing popstates, and a popstate racing a prefetch. Each event is one atomic step. The prefetches started by one observer callback are assumed to settle in order.
- Route lookup by CSS selector: a path containing `"` would make the selector throw, and nested `<route>` elements inside fetched markup would also be found. The store is modelled as a flat sequence.
- `linkData` is a plain object: keys like `constructor` would hit `Object.prototype`. The cache is modelled as a map. Hrefs are absolute URLs, so such keys do not occur.
- Reading the response body (`response.text()`) rejecting: the model treats the body as always readable.
- Answers that change over time: the network is a function of the request, so a repeated request gets the same answer and a transient failure followed by success cannot be expressed. Because of this, `Session.ApplyPreserves` can say that even an empty cache entry never changes, although the program re-fetches and overwrites one. `Session.ApplyKeepsHits` states the part that does not depend on this: non-empty entries are never overwritten.
- Intersection entries queued for a link before it was unobserved: the model delivers a callback only the entries whose target is observed when the callback runs.
- `setRouteChangeHandler` replacing the handler, and the handler's own effects: the model records only whether a handler is set and the paths it receives.

=== FILE: content_cache.dfy ===
/** The page-wide `linkData` cache and `fetchAndSaveContent` (src/router.js).
    Keys are full hrefs; a lookup counts as a hit only when the entry is present
    and non-empty, because the source tests it for truthiness. */
module ContentCache {
  import opened Wrappers
  import opened Fetcher

  type Cache = map<string, string>

  /** `linkData[href]` is truthy. */
  predicate Hit(cache: Cache, href: string) {
    href in cache && cache[href] != ""
  }

  /** Every entry holds what fetching its key yields. The network oracle is a
      function, so this is the "a cached value is a valid fetch result for its
      URL" guarantee, whichever of several fetches of a key wrote last. */
  ghost predicate Faithful(cache: Cache, net: Network, routerCreatedManually: bool) {
    forall href :: href in cache ==> FetchContent(net, href, routerCreatedManually).outcome == Success(cache[href])
  }

  /** The write a started prefetch performs once its fetch settles (the
      assignment after the await): unconditional, so it may replace an entry
      written while the fetch was in flight. A rejection writes nothing. */
  function CompletePrefetch(cache: Cache, href: string, net: Network, routerCreatedManually: bool): (x: Exchange<Cache>)
    ensures x.sent == FetchContent(net, href, routerCreatedManually).sent
    ensures x.outcome.Failure? <==> FetchContent(net, href, routerCreatedManually).outcome.Failure?
    ensures x.outcome.Success? ==> x.outcome.value.Keys == cache.Keys + {href}
    ensures x.outcome.Success? ==> x.outcome.value[href] == FetchContent(net, href, routerCreatedManually).outcome.value
    ensures x.outcome.Success? ==> forall h :: h in cache && h != href ==> x.outcome.value[h] == cache[h]
    ensures x.outcome.Success? && Faithful(cache, net, routerCreatedManually)
            ==> Faithful(x.outcome.value, net, routerCreatedManually)
  {
    var fetched := FetchContent(net, href, routerCreatedManually);
    match fetched.outcome
    case Failure(e) => Exchange(fetched.sent, Failure(e))
    case Success(text) => Exchange(fetched.sent, Success(cache[href := text]))
  }

  /** `fetchAndSaveContent`: memoized prefetch. A hit sends nothing and changes
      nothing; a miss fetches and stores the result under `href`. */
  function FetchAndSave(cache: Cache, href: string, net: Network, routerCreatedManually: bool): (x: Exchange<Cache>)
    ensures Hit(cache, href) ==> x == Exchange([], Success(cache))
    ensures !Hit(cache, href) ==> x.sent == FetchContent(net, href, routerCreatedManually).sent
    ensures x.outcome.Success? ==> x.outcome.value.Keys == cache.Keys + {href}
    ensures x.outcome.Success? ==> forall h :: Hit(cache, h) || (h in cache && h != href) ==> x.outcome.value[h] == cache[h]
    ensures x.outcome.Success? && !Hit(cache, href)
            ==> Success(x.outcome.value[href]) == FetchContent(net, href, routerCreatedManually).outcome
    ensures x.outcome.Failure? ==> !Hit(cache, href) && FetchContent(net, href, routerCreatedManually).outcome.Failure?
    ensures x.outcome.Success? && Faithful(cache, net, routerCreatedManually)
            ==> Faithful(x.outcome.value, net, routerCreatedManually)
  {
    if Hit(cache, href) then Exchange([], Success(cache))
    else CompletePrefetch(cache, href, net, routerCreatedManually)
  }

  /** Two prefetches of the same href in a row send requests at most once,
      unless the first one stored empty content. */
  lemma {:induction false} SecondPrefetchIsFree(cache: Cache, href: string, net: Network, routerCreatedManually: bool)
    requires FetchAndSave(cache, href, net, routerCreatedManually).outcome.Success?
    requires FetchAndSave(cache, href, net, routerCreatedManually).outcome.value[href] != ""
    ensures var after := FetchAndSave(cache, href, net, routerCreatedManually).outcome.value;
            FetchAndSave(after, href, net, routerCreatedManually) == Exchange([], Success(after))
  {
    var after := FetchAndSave(cache, href, net, routerCreatedManually).outcome.value;
    assert Hit(after, href);
  }
}

=== FILE: fetcher.dfy ===
/** `fetchWithFallback` and `fetchContent` (src/router.js). The network is an
    oracle from a request to its reply, so the requests a fetch sends can be
    stated exactly. */
module Fetcher {
  import opened Wrappers
  import opened Text

  datatype Method = Get | Post

  /** A request as `fetch` sends it; `body` is None for a bodiless GET. */
  datatype Request = Request(verb: Method, url: string, body: Option<string>)

  datatype Response = Response(status: nat, text: string) {
    /** `Response.ok` of the Fetch standard: a status in 200-299. */
    predicate Ok() {
      200 <= status <= 299
    }
  }

  /** `fetch` settles with a response, or rejects when the request cannot
      complete (a network failure). */
  datatype Reply = Answered(response: Response) | Unreachable

  datatype FetchError = NetworkError

  /** One fetch operation: the requests it sent, in order, and how it settled. */
  datatype Exchange<T> = Exchange(sent: seq<Request>, outcome: Result<T, FetchError>)

  type Network = Request -> Reply

  /** The sentinel body asking the server for the route fragment only. */
  const OnlyRoute: string := "onlyRoute"

  const HttpErrorPrefix: string := "Couldn't fetch the route - HTTP error! status: "

  /** `fetch(url, { method: "POST", body: "onlyRoute" })` */
  function FragmentRequest(url: string): Request {
    Request(Post, url, Some(OnlyRoute))
  }

  /** `fetch(url)` */
  function PageRequest(url: string): Request {
    Request(Get, url, None)
  }

  function Settle(reply: Reply): Result<Response, FetchError> {
    match reply
    case Answered(response) => Success(response)
    case Unreachable => Failure(NetworkError)
  }

  /** The fragment POST is tried first unless the router container was
      synthesized on the client; a non-ok answer to it falls back to one GET.
      A rejected POST is not retried: the rejection propagates. */
  function FetchWithFallback(net: Network, url: string, routerCreatedManually: bool): (x: Exchange<Response>)
    ensures 1 <= |x.sent| <= 2
    ensures forall i :: 0 <= i < |x.sent| ==> x.sent[i].url == url
    ensures x.sent[0] == (if routerCreatedManually then PageRequest(url) else FragmentRequest(url))
    ensures |x.sent| == 2 <==> (!routerCreatedManually && net(FragmentRequest(url)).Answered?
                                && !net(FragmentRequest(url)).response.Ok())
    ensures |x.sent| == 2 ==> x.sent[1] == PageRequest(url)
    ensures x.outcome == Settle(net(x.sent[|x.sent| - 1]))
    ensures x.outcome.Success? && !x.outcome.value.Ok() ==> x.sent[|x.sent| - 1] == PageRequest(url)
  {
    if !routerCreatedManually then
      var post := FragmentRequest(url);
      match net(post)
      case Unreachable => Exchange([post], Failure(NetworkError))
      case Answered(res) =>
        if res.Ok() then Exchange([post], Success(res))
        else Exchange([post, PageRequest(url)], Settle(net(PageRequest(url))))
    else
      Exchange([PageRequest(url)], Settle(net(PageRequest(url))))
  }

  /** The placeholder content for a non-ok response: the fixed prefix followed
      by the status in decimal, which reads back as that status. */
  function HttpErrorText(status: nat): (s: string)
    ensures StartsWith(s, HttpErrorPrefix)
    ensures AllDigits(s[|HttpErrorPrefix|..]) && DigitsValue(s[|HttpErrorPrefix|..]) == status
    // at least one digit and no leading zero, so the digits are exactly `${status}`
    ensures |s| > |HttpErrorPrefix| && (s[|HttpErrorPrefix|] == '0' ==> status == 0)
    ensures s[|HttpErrorPrefix|] == '0' ==> |s| == |HttpErrorPrefix| + 1
  {
    DecimalRoundTrip(status);
    var s := HttpErrorPrefix + Decimal(status);
    assert s[|HttpErrorPrefix|..] == Decimal(status);
    s
  }

  /** Distinct statuses give distinct placeholders. */
  lemma HttpErrorTextInjective(a: nat, b: nat)
    ensures HttpErrorText(a) == HttpErrorText(b) ==> a == b
  {
  }

  /** The text a route is rendered from: the final response's body when it is
      ok, the status placeholder otherwise. Only a rejection of the underlying
      fetch makes it fail. */
  function FetchContent(net: Network, url: string, routerCreatedManually: bool): (x: Exchange<string>)
    ensures x.sent == FetchWithFallback(net, url, routerCreatedManually).sent
    ensures x.outcome.Failure? <==> net(x.sent[|x.sent| - 1]).Unreachable?
    ensures net(x.sent[|x.sent| - 1]).Answered? && net(x.sent[|x.sent| - 1]).response.Ok()
            ==> x.outcome == Success(net(x.sent[|x.sent| - 1]).response.text)
    ensures net(x.sent[|x.sent| - 1]).Answered? && !net(x.sent[|x.sent| - 1]).response.Ok()
            ==> x.outcome == Success(HttpErrorText(net(x.sent[|x.sent| - 1]).response.status))
  {
    var x := FetchWithFallback(net, url, routerCreatedManually);
    match x.outcome
    case Failure(e) => Exchange(x.sent, Failure(e))
    case Success(response) =>
      if !response.Ok() then Exchange(x.sent, Success(HttpErrorText(response.status)))
      else Exchange(x.sent, Success(response.text))
  }

  /** Content that comes back empty was an ok response with an empty body: the
      placeholder is never empty. */
  lemma EmptyContentIsOkAndEmpty(net: Network, url: string, routerCreatedManually: bool)
    requires FetchContent(net, url, routerCreatedManually).outcome == Success("")
    ensures var last := FetchContent(net, url, routerCreatedManually).sent;
            net(last[|last| - 1]).Answered? && net(last[|last| - 1]).response.Ok()
            && net(last[|last| - 1]).response.text == ""
  {
    var last := FetchContent(net, url, routerCreatedManually).sent;
    var reply := net(last[|last| - 1]);
    if reply.Answered? && !reply.response.Ok() {
      assert StartsWith(HttpErrorText(reply.response.status), HttpErrorPrefix);
    }
  }

  /** A 404 on the GET (after a non-ok fragment POST, when one is sent), with
      whatever body, yields exactly "Couldn't fetch the route - HTTP error! status: 404". */
  lemma NotFoundPlaceholder(net: Network, url: string, routerCreatedManually: bool)
    requires net(PageRequest(url)).Answered? && net(PageRequest(url)).response.status == 404
    requires !routerCreatedManually ==> net(FragmentRequest(url)).Answered? && !net(FragmentRequest(url)).response.Ok()
    ensures FetchContent(net, url, routerCreatedManually).outcome
            == Success("Couldn't fetch the route - HTTP error! status: 404")
  {
    assert Decimal(40) == "40";
    assert HttpErrorText(404) == "Couldn't fetch the route - HTTP error! status: 404";
  }
}

=== FILE: link_classifier.dfy ===
/** The same-site link test of `isInternalLink` (src/router.js). URL parsing is
    not modelled: the caller supplies what `new URL(href, origin)` yields, or
    None when the constructor throws. */
module LinkClassifier {
  import opened Wrappers
  import opened Text

  /** The components of a parsed URL that the classifier reads. `hash` is the
      URL API's `hash`: "" when there is no fragment or an empty one. */
  datatype Url = Url(hostname: string, pathname: string, hash: string)

  const WwwPrefix: string := "www."
  const ScriptScheme: string := "javascript:"

  /** `hostname.replace(/^www\./, "")`: drops one leading "www.", no more. */
  function StripWww(host: string): (r: string)
    ensures StartsWith(host, WwwPrefix) ==> WwwPrefix + r == host
    ensures !StartsWith(host, WwwPrefix) ==> r == host
  {
    if StartsWith(host, WwwPrefix) then host[|WwwPrefix|..] else host
  }

  /** Two URLs name the same site when their hosts agree up to one leading "www.". */
  predicate SameSite(a: Url, b: Url) {
    StripWww(a.hostname) == StripWww(b.hostname)
  }

  /** The href forms decided before any URL is parsed: empty, fragment-only and
      script hrefs are rejected, root-relative ones accepted. */
  predicate Rejected(href: string) {
    href == [] || StartsWith(href, "#") || StartsWith(href, ScriptScheme)
  }

  predicate RootRelative(href: string) {
    StartsWith(href, "/")
  }

  /** An href that reaches URL parsing and parses. */
  predicate Resolved(href: string, target: Option<Url>) {
    !Rejected(href) && !RootRelative(href) && target.Some?
  }

  /** Whether the router handles `href` itself. `target` is `href` resolved
      against the page origin (None if that throws); `current` is the page's URL. */
  function IsInternalLink(href: string, target: Option<Url>, current: Url): (r: bool)
    ensures Rejected(href) ==> !r
    ensures !Rejected(href) && RootRelative(href) ==> r
    ensures !RootRelative(href) && target.None? ==> !r
    ensures !RootRelative(href) && target.Some? && !SameSite(target.value, current) ==> !r
    ensures (Resolved(href, target) && SameSite(target.value, current)
             && target.value.pathname != current.pathname) ==> r
    ensures (Resolved(href, target) && SameSite(target.value, current)
             && target.value.pathname == current.pathname) ==> (r <==> target.value.hash == "")
  {
    if Rejected(href) then false
    else if RootRelative(href) then true
    else match target
      case None => false
      case Some(url) =>
        if StripWww(current.hostname) != StripWww(url.hostname) then false
        else current.pathname != url.pathname || url.hash == ""
  }

  /** Every root-relative href is internal, protocol-relative `//host/...`
      included, whatever it would resolve to. */
  lemma ProtocolRelativeIsInternal(rest: string, target: Option<Url>, current: Url)
    ensures IsInternalLink("//" + rest, target, current)
  {
    assert StartsWith("//" + rest, "/");
    assert !StartsWith("//" + rest, "#");
  }

  /** A "www." in front of the link's host does not change the verdict, as
      long as the host under it does not itself start with "www.". */
  lemma WwwInsensitive(href: string, url: Url, current: Url)
    requires !StartsWith(url.hostname, WwwPrefix)
    ensures IsInternalLink(href, Some(url.(hostname := WwwPrefix + url.hostname)), current)
            == IsInternalLink(href, Some(url), current)
  {
    assert StartsWith(WwwPrefix + url.hostname, WwwPrefix);
    assert (WwwPrefix + url.hostname)[|WwwPrefix|..] == url.hostname;
  }

  /** Only one "www." is stripped: "www.www.example.com" is another site than
      "example.com". */
  lemma DoubleWwwIsAnotherSite()
    ensures !IsInternalLink("https://www.www.example.com/a",
                            Some(Url("www.www.example.com", "/a", "")),
                            Url("example.com", "/", ""))
  {
    var href := "https://www.www.example.com/a";
    assert href[..1] == "h";
    assert !Rejected(href) && !RootRelative(href);
    assert "www.www.example.com"[..4] == WwwPrefix;
    assert StripWww("www.www.example.com") == "www.example.com";
    assert "example.com"[..4] == "exam";
    assert StripWww("example.com") == "example.com";
  }

  /** A same-site link to the current page is internal without a fragment and
      not internal with one. */
  lemma SamePageFragmentIsNotInternal()
    ensures IsInternalLink("https://example.com/docs", Some(Url("example.com", "/docs", "")),
                           Url("example.com", "/docs", ""))
    ensures !IsInternalLink("https://example.com/docs#intro", Some(Url("example.com", "/docs", "#intro")),
                            Url("example.com", "/docs", ""))
  {
    assert "https://example.com/docs"[..1] == "h";
    assert "https://example.com/docs#intro"[..1] == "h";
    assert !StartsWith("https://example.com/docs", "/");
    assert !StartsWith("https://example.com/docs#intro", "/");
    assert !StartsWith("https://example.com/docs", "#");
    assert !StartsWith("https://example.com/docs#intro", "#");
  }
}

=== FILE: navigation.dfy ===
/** The router state and the popstate transition `handlePopState`, plus the
    `startRouter` bootstrap branch (src/router.js). */
module Navigation {
  import opened Wrappers
  import opened Fetcher
  import opened ContentCache
  import opened Routes

  /** Parsing fetched HTML off-document, taking its body's inner markup and
      re-instantiating its scripts. Browser HTML semantics, so an oracle. */
  type Render = string -> string

  /** The router session: the route store, the content cache, whether the
      `<router>` container was synthesized on the client, whether a
      route-change handler is registered, and the paths it has been called with. */
  datatype State = State(routes: seq<Route>, cache: Cache, routerCreatedManually: bool,
                         hasHandler: bool, handlerCalls: seq<string>)

  /** One popstate cycle: the state it leaves behind, the requests it sent, and
      whether it ran to the end (false when its fetch rejected). */
  datatype Step = Step(state: State, sent: seq<Request>, completed: bool)

  /** The route for `key`, appending an empty one when the store has none. */
  function FindOrAppend(routes: seq<Route>, key: string): (p: (seq<Route>, nat))
    ensures p.1 < |p.0| && p.0[p.1].path == key && Find(p.0, key) == Some(p.1)
    ensures |p.0| == |routes| + (if Find(routes, key).None? then 1 else 0)
    ensures forall j :: 0 <= j < |routes| ==> p.0[j] == routes[j]
    ensures Find(routes, key).None? ==> p.0[p.1] == Route(key, "", Auto)
    ensures UniqueKeys(routes) ==> UniqueKeys(p.0)
  {
    match Find(routes, key)
    case Some(i) => (routes, i)
    case None => (routes + [Route(key, "", Auto)], |routes|)
  }

  /** The store already has a non-empty route for `key`. */
  predicate Populated(routes: seq<Route>, key: string) {
    Find(routes, key).Some? && routes[Find(routes, key).value].content != ""
  }

  /** The outcome of filling one route: the store and cache after it, the
      requests sent, and whether it finished (false when the fetch rejected). */
  datatype Filled = Filled(routes: seq<Route>, cache: Cache, sent: seq<Request>, ok: bool)

  /** Lines 21-55 of `handlePopState`: an empty route k is filled with the
      rendering of the cache entry for `href`, fetched and stored on a miss. */
  function Populate(routes: seq<Route>, k: nat, cache: Cache, href: string, net: Network,
                    routerCreatedManually: bool, render: Render): (f: Filled)
    requires k < |routes|
    ensures |f.routes| == |routes|
    ensures forall j :: 0 <= j < |routes| ==> f.routes[j].path == routes[j].path
    ensures forall j :: 0 <= j < |routes| ==> f.routes[j].visibility == routes[j].visibility
    ensures forall j :: 0 <= j < |routes| && j != k ==> f.routes[j].content == routes[j].content
    ensures routes[k].content != "" ==> f == Filled(routes, cache, [], true)
    ensures !f.ok ==> f.routes == routes && f.cache == cache && f.sent != []
                      && FetchContent(net, href, routerCreatedManually).outcome.Failure?
    ensures f.ok && routes[k].content == "" ==> href in f.cache && f.routes[k].content == render(f.cache[href])
    ensures f.sent != [] ==> !Hit(cache, href) && f.sent == FetchContent(net, href, routerCreatedManually).sent
    ensures routes[k].content == "" && !Hit(cache, href) ==> f.sent == FetchContent(net, href, routerCreatedManually).sent
    ensures f.sent == [] ==> f.cache == cache
    ensures f.cache.Keys <= cache.Keys + {href}
    ensures forall h :: h in cache && (h != href || Hit(cache, h)) ==> h in f.cache && f.cache[h] == cache[h]
    ensures f.sent != [] && f.ok ==> href in f.cache && Success(f.cache[href]) == FetchContent(net, href, routerCreatedManually).outcome
    ensures Faithful(cache, net, routerCreatedManually) ==> Faithful(f.cache, net, routerCreatedManually)
  {
    if routes[k].content != "" then Filled(routes, cache, [], true)
    else if Hit(cache, href) then Filled(Fill(routes, k, render(cache[href])), cache, [], true)
    else
      var fetched := FetchContent(net, href, routerCreatedManually);
      match fetched.outcome
      case Failure(_) => Filled(routes, cache, fetched.sent, false)
      case Success(text) => Filled(Fill(routes, k, render(text)), cache[href := text], fetched.sent, true)
  }

  /** `currentRoute.innerHTML = ...` on route k. */
  function Fill(routes: seq<Route>, k: nat, content: string): (rs: seq<Route>)
    requires k < |routes|
    ensures |rs| == |routes| && rs[k] == routes[k].(content := content)
    ensures forall j :: 0 <= j < |routes| && j != k ==> rs[j] == routes[j]
  {
    routes[k := routes[k].(content := content)]
  }

  /** `handlePopState` for the location `pathname` / `href`. The route key is
      the pathname without its trailing slash; an empty route is filled from
      the cache entry for the full href, fetching only on a miss; then only
      that route is shown and the handler is told the key. */
  function Navigate(s: State, pathname: string, href: string, net: Network, render: Render): (t: Step)
    // the store gains a route only when none has the normalized key
    ensures |t.state.routes| == |s.routes| + (if Find(s.routes, Normalize(pathname)).None? then 1 else 0)
    ensures Find(t.state.routes, Normalize(pathname)).Some?
    // a completed cycle shows exactly the route for the key; only a rejected fetch stops it
    ensures t.completed ==> OnlyVisible(t.state.routes, Find(t.state.routes, Normalize(pathname)).value)
    ensures !t.completed ==> t.sent != [] && FetchContent(net, href, s.routerCreatedManually).outcome.Failure?
    // the handler sees the normalized path once per completed cycle
    ensures t.state.handlerCalls == s.handlerCalls + (if t.completed && s.hasHandler then [Normalize(pathname)] else [])
    ensures t.state.routerCreatedManually == s.routerCreatedManually && t.state.hasHandler == s.hasHandler
  {
    var key := Normalize(pathname);
    var found := FindOrAppend(s.routes, key);
    var routes := found.0;
    var k := found.1;
    var f := Populate(routes, k, s.cache, href, net, s.routerCreatedManually, render);
    var shown := ShowOnly(f.routes, k);
    FindSamePaths(routes, f.routes, key);
    FindSamePaths(routes, shown, key);
    if f.ok then
      Step(s.(routes := shown, cache := f.cache,
              handlerCalls := if s.hasHandler then s.handlerCalls + [key] else s.handlerCalls),
           f.sent, true)
    else
      Step(s.(routes := f.routes), f.sent, false)
  }

  /** Existing routes keep their paths and places. */
  lemma NavigateKeepsPaths(s: State, pathname: string, href: string, net: Network, render: Render, t: Step)
    requires t == Navigate(s, pathname, href, net, render)
    ensures SamePaths(FindOrAppend(s.routes, Normalize(pathname)).0, t.state.routes)
    ensures forall j :: 0 <= j < |s.routes| ==> t.state.routes[j].path == s.routes[j].path
  {
    var found := FindOrAppend(s.routes, Normalize(pathname));
    var f := Populate(found.0, found.1, s.cache, href, net, s.routerCreatedManually, render);
    assert t.state.routes == if f.ok then ShowOnly(f.routes, found.1) else f.routes;
  }

  /** Keys stay unique. */
  lemma NavigateKeepsKeysUnique(s: State, pathname: string, href: string, net: Network, render: Render, t: Step)
    requires t == Navigate(s, pathname, href, net, render)
    requires UniqueKeys(s.routes)
    ensures UniqueKeys(t.state.routes)
  {
    NavigateKeepsPaths(s, pathname, href, net, render, t);
    SamePathsUnique(FindOrAppend(s.routes, Normalize(pathname)).0, t.state.routes);
  }

  /** Content changes only for the current route, and only when it was empty. */
  lemma NavigateFillsOnlyCurrent(s: State, pathname: string, href: string, net: Network, render: Render, t: Step)
    requires t == Navigate(s, pathname, href, net, render)
    ensures forall j :: 0 <= j < |s.routes| && t.state.routes[j].content != s.routes[j].content
              ==> Find(s.routes, Normalize(pathname)) == Some(j) && s.routes[j].content == ""
  {
    var key := Normalize(pathname);
    var found := FindOrAppend(s.routes, key);
    var f := Populate(found.0, found.1, s.cache, href, net, s.routerCreatedManually, render);
    if f.ok {
      assert t.state.routes == ShowOnly(f.routes, found.1);
      forall j | 0 <= j < |s.routes| && t.state.routes[j].content != s.routes[j].content
        ensures Find(s.routes, key) == Some(j) && s.routes[j].content == ""
      {
        assert f.routes[j].content != found.0[j].content;
      }
    } else {
      assert t.state.routes == f.routes == found.0;
    }
  }

  /** A populated route is returned to with no request and the cache unchanged. */
  lemma NavigatePopulatedIsFree(s: State, pathname: string, href: string, net: Network, render: Render, t: Step)
    requires t == Navigate(s, pathname, href, net, render)
    requires Populated(s.routes, Normalize(pathname))
    ensures t.sent == [] && t.completed && t.state.cache == s.cache
  {
  }

  /** A cycle whose fetch rejected changes no route's visibility and leaves the cache as it was. */
  lemma NavigateRejectedKeepsVisibility(s: State, pathname: string, href: string, net: Network, render: Render, t: Step)
    requires t == Navigate(s, pathname, href, net, render)
    requires !t.completed
    ensures forall j :: 0 <= j < |s.routes| ==> t.state.routes[j].visibility == s.routes[j].visibility
    ensures t.state.cache == s.cache
  {
    var found := FindOrAppend(s.routes, Normalize(pathname));
    var f := Populate(found.0, found.1, s.cache, href, net, s.routerCreatedManually, render);
    assert t.state.routes == f.routes == found.0;
  }

  /** The cache side of a popstate cycle: the network is used exactly when the
      route is empty and the cache misses (an empty entry counts as a miss),
      an entry that was a hit is never overwritten, and a route filled by the
      cycle holds the rendering of the cache entry for the full href. */
  lemma NavigateCacheDiscipline(s: State, pathname: string, href: string, net: Network, render: Render, t: Step)
    requires t == Navigate(s, pathname, href, net, render)
    ensures t.sent != [] ==> !Hit(s.cache, href) && t.sent == FetchContent(net, href, s.routerCreatedManually).sent
    ensures (!Populated(s.routes, Normalize(pathname)) && !Hit(s.cache, href))
              ==> t.sent == FetchContent(net, href, s.routerCreatedManually).sent
    ensures t.sent == [] ==> t.state.cache == s.cache
    ensures t.state.cache.Keys <= s.cache.Keys + {href}
    ensures forall h :: h in s.cache && (h != href || Hit(s.cache, h)) ==> h in t.state.cache && t.state.cache[h] == s.cache[h]
    ensures t.sent != [] && t.completed ==> href in t.state.cache && Success(t.state.cache[href]) == FetchContent(net, href, s.routerCreatedManually).outcome
    ensures Faithful(s.cache, net, s.routerCreatedManually) ==> Faithful(t.state.cache, net, s.routerCreatedManually)
    ensures (t.completed && !Populated(s.routes, Normalize(pathname)))
              ==> (href in t.state.cache
                   && t.state.routes[Find(t.state.routes, Normalize(pathname)).value].content == render(t.state.cache[href]))
  {
  }

  /** The bootstrap branch of `startRouter`. With no `<router>` in the page the
      whole body becomes one route keyed by the raw pathname and the router is
      marked as synthesized; an existing router is kept as it is. */
  function Bootstrap(existing: Option<seq<Route>>, body: string, pathname: string, hasHandler: bool): (s: State)
    ensures s.cache == map[] && s.handlerCalls == [] && s.hasHandler == hasHandler
    ensures s.routerCreatedManually <==> existing.None?
    ensures existing.Some? ==> s.routes == existing.value
    ensures existing.None? ==> s.routes == [Route(pathname, body, Auto)]
  {
    match existing
    case Some(routes) => State(routes, map[], false, hasHandler, [])
    case None => State([Route(pathname, body, Auto)], map[], true, hasHandler, [])
  }
}

=== FILE: routes.dfy ===
/** The route store: the `<route path=...>` children of the `<router>`
    element, as an ordered sequence. */
module Routes {
  import opened Wrappers

  /** `content-visibility` of a route: Auto is the stylesheet default of a
      route no navigation has touched yet. */
  datatype Visibility = Auto | Visible | Hidden

  datatype Route = Route(path: string, content: string, visibility: Visibility)

  /** `pathname.replace(/\/$/, "")`: exactly one trailing slash is dropped. */
  function Normalize(pathname: string): (key: string)
    ensures key == pathname || key + "/" == pathname
    ensures |pathname| > 0 && pathname[|pathname| - 1] == '/' ==> key + "/" == pathname
  {
    if |pathname| > 0 && pathname[|pathname| - 1] == '/' then pathname[..|pathname| - 1] else pathname
  }

  lemma NormalizeRoot()
    ensures Normalize("/") == ""
  {
  }

  /** A path with several trailing slashes keeps all but one. */
  lemma NormalizeDropsOneSlash(key: string)
    ensures Normalize(key + "/") == key
    ensures Normalize(key + "//") == key + "/"
  {
    assert (key + "//")[..|key + "//"| - 1] == key + "/";
    assert (key + "/")[..|key + "/"| - 1] == key;
  }

  /** `router.querySelector('route[path="key"]')`: the first route with that path. */
  function Find(routes: seq<Route>, key: string): (i: Option<nat>)
    ensures i.Some? ==> i.value < |routes| && routes[i.value].path == key
    ensures i.Some? ==> forall j :: 0 <= j < i.value ==> routes[j].path != key
    ensures i.None? ==> forall j :: 0 <= j < |routes| ==> routes[j].path != key
    decreases |routes|
  {
    if routes == [] then None
    else if routes[0].path == key then Some(0)
    else match Find(routes[1..], key)
      case None => None
      case Some(j) => Some(j + 1)
  }

  /** Extending the store at its end does not change which route a key that is
      already present finds. */
  lemma {:induction false} FindStableUnderExtension(routes: seq<Route>, more: seq<Route>, key: string)
    requires Find(routes, key).Some?
    requires |more| >= |routes|
    requires forall j :: 0 <= j < |routes| ==> more[j].path == routes[j].path
    ensures Find(more, key) == Find(routes, key)
    decreases |routes|
  {
    if routes[0].path != key {
      FindStableUnderExtension(routes[1..], more[1..], key);
    }
  }

  /** Two stores with the same paths in the same places. */
  predicate SamePaths(a: seq<Route>, b: seq<Route>) {
    |a| == |b| && forall j :: 0 <= j < |a| ==> a[j].path == b[j].path
  }

  /** Lookup reads paths only: filling or showing routes does not move a key. */
  lemma {:induction false} FindSamePaths(a: seq<Route>, b: seq<Route>, key: string)
    requires SamePaths(a, b)
    ensures Find(a, key) == Find(b, key)
    decreases |a|
  {
    if a != [] && a[0].path != key {
      FindSamePaths(a[1..], b[1..], key);
    }
  }

  /** No two routes share a path. */
  predicate UniqueKeys(routes: seq<Route>) {
    forall i, j :: 0 <= i < j < |routes| ==> routes[i].path != routes[j].path
  }

  lemma SamePathsUnique(a: seq<Route>, b: seq<Route>)
    requires SamePaths(a, b) && UniqueKeys(a)
    ensures UniqueKeys(b)
  {
  }

  /** Route k is visible and every other route hidden. */
  predicate OnlyVisible(routes: seq<Route>, k: nat) {
    forall j :: 0 <= j < |routes| ==> (routes[j].visibility == Visible <==> j == k)
  }

  /** Hiding every route and then showing route k. */
  function ShowOnly(routes: seq<Route>, k: nat): (rs: seq<Route>)
    requires k < |routes|
    ensures |rs| == |routes| && OnlyVisible(rs, k)
    ensures forall j :: 0 <= j < |rs| && j != k ==> rs[j].visibility == Hidden
    ensures forall j :: 0 <= j < |rs| ==> rs[j].path == routes[j].path && rs[j].content == routes[j].content
  {
    seq(|routes|, j requires 0 <= j < |routes| => routes[j].(visibility := if j == k then Visible else Hidden))
  }
}

=== FILE: session.dfy ===
/** A router session from `startRouter` on: bootstrap, then any sequence of
    popstate cycles, hover prefetches and observer callbacks, each taken as one
    atomic step (src/router.js). */
module Session {
  import opened Wrappers
  import opened Text
  import opened Fetcher
  import opened ContentCache
  import opened Routes
  import opened Navigation
  import opened Triggers

  /** The router state together with the set of links under visibility observation. */
  datatype Session = Session(router: State, observed: set<Element>)

  /** What can happen after start-up. A PopState is a history traversal or the
      synthetic event raised by an intercepted click; it carries the new
      location's pathname and full href. */
  datatype Event =
    | PopState(pathname: string, href: string)
    | Hover(page: Page, target: Element)
    | Intersect(entries: seq<Entry>)

  /** `startRouter`: bootstrap the store, then observe the page's anchors. */
  function Start(existing: Option<seq<Route>>, body: string, pathname: string, hasHandler: bool,
                 page: Page, anchors: seq<Element>, saveData: bool): (s: Session)
    ensures s.router.routerCreatedManually <==> existing.None?
    ensures s.router.cache == map[] && s.router.handlerCalls == []
    ensures s.router.hasHandler == hasHandler
    ensures existing.Some? ==> s.router.routes == existing.value
    ensures existing.None? ==> s.router.routes == [Route(pathname, body, Auto)]
    ensures forall e :: e in s.observed <==> e in anchors && ShouldObserve(page, e, saveData)
  {
    var observed := ObserveLinks(page, anchors, saveData);
    Session(Bootstrap(existing, body, pathname, hasHandler), set e | e in observed)
  }

  /** The writes of a batch of started prefetches, settling in order; a
      rejected one writes nothing. */
  function CompleteAll(cache: Cache, hrefs: seq<string>, net: Network, routerCreatedManually: bool): (c: Cache)
    ensures cache.Keys <= c.Keys <= cache.Keys + set h | h in hrefs
    ensures forall h :: h in hrefs && FetchContent(net, h, routerCreatedManually).outcome.Success? ==> h in c
    ensures forall h :: h in cache && h !in hrefs ==> c[h] == cache[h]
    ensures Faithful(cache, net, routerCreatedManually) ==> Faithful(c, net, routerCreatedManually)
    decreases |hrefs|
  {
    if hrefs == [] then cache
    else
      var first := CompletePrefetch(cache, hrefs[0], net, routerCreatedManually);
      var next := if first.outcome.Success? then first.outcome.value else cache;
      var c := CompleteAll(next, hrefs[1..], net, routerCreatedManually);
      assert forall h :: h in hrefs <==> h == hrefs[0] || h in hrefs[1..];
      c
  }

  /** One event, as an atomic step, dispatched to the listener `startRouter`
      registered for it. A rejected fetch leaves whatever the step had done
      before its await. */
  function Apply(s: Session, e: Event, net: Network, render: Render): Session {
    match e
    case PopState(pathname, href) =>
      s.(router := Navigate(s.router, pathname, href, net, render).state)
    case Hover(page, target) =>
      if HoverPrefetches(page, target, s.router.cache) then
        var x := FetchAndSave(s.router.cache, target.href, net, s.router.routerCreatedManually);
        if x.outcome.Success? then s.(router := s.router.(cache := x.outcome.value)) else s
      else s
    case Intersect(entries) =>
      var r := HandleIntersection(Delivered(entries, s.observed), s.observed, s.router.cache);
      Session(s.router.(cache := CompleteAll(s.router.cache, r.started, net, s.router.routerCreatedManually)),
              r.observed)
  }

  /** Each listener touches only its own part of the session: only a popstate
      changes the route store and the handler log, only an observer callback
      changes what is observed, a hover that does not prefetch changes
      nothing, and no event changes the flags. */
  lemma ApplyDispatch(s: Session, e: Event, net: Network, render: Render)
    ensures var t := Apply(s, e, net, render);
            && t.router.routerCreatedManually == s.router.routerCreatedManually
            && t.router.hasHandler == s.router.hasHandler
            && (!e.PopState? ==> t.router.routes == s.router.routes && t.router.handlerCalls == s.router.handlerCalls)
            && (!e.Intersect? ==> t.observed == s.observed)
            && (e.Hover? && !HoverPrefetches(e.page, e.target, s.router.cache) ==> t == s)
  {
  }

  function Run(s: Session, events: seq<Event>, net: Network, render: Render): Session
    decreases |events|
  {
    if events == [] then s else Run(Apply(s, events[0], net, render), events[1..], net, render)
  }

  /** A hover touches only the cache, and only for a hover-prefetch anchor
      that is internal and uncached; then the href ends up cached with what
      fetching it yields, unless the fetch rejected. */
  lemma HoverEffect(s: Session, page: Page, target: Element, net: Network, render: Render)
    ensures var t := Apply(s, Hover(page, target), net, render);
            && t.router.routes == s.router.routes && t.observed == s.observed
            && t.router.handlerCalls == s.router.handlerCalls
            && (!HoverPrefetches(page, target, s.router.cache) ==> t == s)
            && (HoverPrefetches(page, target, s.router.cache)
                && FetchContent(net, target.href, s.router.routerCreatedManually).outcome.Success?
                ==> target.href in t.router.cache
                    && Success(t.router.cache[target.href])
                       == FetchContent(net, target.href, s.router.routerCreatedManually).outcome)
  {
  }

  /** An observer callback touches only the cache and the observed set. Of
      the entries for observed links, an intersecting uncached one leaves the
      set and every intersecting one whose fetch fulfils ends up cached; a
      cached link stays observed, and nothing leaves the set unless an
      intersecting entry for it was delivered. */
  lemma IntersectEffect(s: Session, entries: seq<Entry>, net: Network, render: Render)
    ensures var t := Apply(s, Intersect(entries), net, render);
            && t.router.routes == s.router.routes && t.router.handlerCalls == s.router.handlerCalls
            && t.observed <= s.observed
            && (forall en :: en in entries && en.target in s.observed && en.isIntersecting
                  && FetchContent(net, en.target.href, s.router.routerCreatedManually).outcome.Success?
                  ==> en.target.href in t.router.cache)
            && (forall en :: en in entries && en.target in s.observed && en.isIntersecting
                  && !Hit(s.router.cache, en.target.href)
                  ==> en.target !in t.observed)
            && (forall e :: e in s.observed && Hit(s.router.cache, e.href) ==> e in t.observed)
            && (forall e :: e in s.observed && e !in t.observed
                  ==> exists en :: en in entries && en.target == e && en.isIntersecting)
  {
    var d := Delivered(entries, s.observed);
    var r := HandleIntersection(d, s.observed, s.router.cache);
    forall en | en in d && en.isIntersecting && !Hit(s.router.cache, en.target.href)
      ensures en.target.href in r.started && en.target !in r.observed
    {
      var i :| 0 <= i < |d| && d[i] == en;
    }
    forall e | e in s.observed && e !in r.observed
      ensures exists en :: en in entries && en.target == e && en.isIntersecting
    {
      var i :| 0 <= i < |d| && d[i].target == e && d[i].isIntersecting;
      assert d[i] in entries;
    }
  }

  /** A hover reacts to the event target itself, not to its closest anchor:
      hovering an element inside a hover-prefetch anchor changes nothing. */
  lemma HoverNeedsTheAnchorItself(s: Session, page: Page, target: Element, net: Network, render: Render)
    requires !IsAnchor(target) || target.prefetch != Some(OnHover)
    ensures Apply(s, Hover(page, target), net, render) == s
  {
  }

  /** A hover over a hover-prefetch anchor whose href is cached or not
      internal changes nothing and sends nothing. */
  lemma HoverSkipsCachedOrExternal(s: Session, page: Page, target: Element, net: Network, render: Render)
    requires Hit(s.router.cache, target.href) || !Internal(page, target.href)
    ensures Apply(s, Hover(page, target), net, render) == s
  {
  }

  /** Every non-empty entry of `a` is in `b` unchanged. */
  predicate KeepsHits(a: Cache, b: Cache) {
    forall h :: h in a && Hit(a, h) ==> h in b && b[h] == a[h]
  }

  /** Whatever the network answers, no event overwrites a non-empty cache
      entry: every path that writes tests the entry for truthiness first. */
  lemma ApplyKeepsHits(s: Session, e: Event, net: Network, render: Render)
    ensures KeepsHits(s.router.cache, Apply(s, e, net, render).router.cache)
  {
    match e
    case PopState(pathname, href) =>
      NavigateCacheDiscipline(s.router, pathname, href, net, render, Navigate(s.router, pathname, href, net, render));
    case Hover(page, target) =>
    case Intersect(entries) =>
      var r := HandleIntersection(Delivered(entries, s.observed), s.observed, s.router.cache);
      assert forall h :: Hit(s.router.cache, h) ==> h !in r.started;
  }

  /** What every reachable session satisfies, whatever markup the page was
      served with: a cache whose every entry is what fetching its key yields.
      Unique route keys are kept only once they hold, since a server-rendered
      router may repeat a path and start-up does not check it. */
  ghost predicate Inv(s: Session, net: Network) {
    Faithful(s.router.cache, net, s.router.routerCreatedManually)
  }

  /** How a later session relates to an earlier one: the store only grows,
      keeps its paths in place and never changes a non-empty route; the cache
      only grows and never changes an entry; the flags stay. The cache clause
      holds for empty entries too only because the network answers a repeated
      request the same way; `ApplyKeepsHits` states what holds without that. */
  ghost predicate Extends(s: Session, t: Session) {
    && |s.router.routes| <= |t.router.routes|
    && (forall j :: 0 <= j < |s.router.routes| ==> t.router.routes[j].path == s.router.routes[j].path)
    && (forall j :: 0 <= j < |s.router.routes| && s.router.routes[j].content != ""
          ==> t.router.routes[j].content == s.router.routes[j].content)
    && (forall h :: h in s.router.cache ==> h in t.router.cache && t.router.cache[h] == s.router.cache[h])
    && t.router.routerCreatedManually == s.router.routerCreatedManually
    && t.router.hasHandler == s.router.hasHandler
  }

  lemma StartEstablishesInv(existing: Option<seq<Route>>, body: string, pathname: string, hasHandler: bool,
                            page: Page, anchors: seq<Element>, saveData: bool, net: Network)
    ensures Inv(Start(existing, body, pathname, hasHandler, page, anchors, saveData), net)
    ensures (existing.Some? ==> UniqueKeys(existing.value))
            ==> UniqueKeys(Start(existing, body, pathname, hasHandler, page, anchors, saveData).router.routes)
  {
  }

  /** No event makes unique route keys repeat: only a popstate touches the
      store, and it appends only a key that is absent. */
  lemma ApplyKeepsKeysUnique(s: Session, e: Event, net: Network, render: Render)
    requires UniqueKeys(s.router.routes)
    ensures UniqueKeys(Apply(s, e, net, render).router.routes)
  {
    if e.PopState? {
      NavigateKeepsKeysUnique(s.router, e.pathname, e.href, net, render,
                              Navigate(s.router, e.pathname, e.href, net, render));
    }
  }

  /** Each event keeps the invariant and extends the session. */
  lemma ApplyPreserves(s: Session, e: Event, net: Network, render: Render)
    requires Inv(s, net)
    ensures Inv(Apply(s, e, net, render), net)
    ensures Extends(s, Apply(s, e, net, render))
  {
    match e
    case PopState(pathname, href) => PopStatePreserves(s, pathname, href, net, render);
    case Hover(page, target) => CacheOnlyStepPreserves(s, Apply(s, e, net, render), net);
    case Intersect(entries) => CacheOnlyStepPreserves(s, Apply(s, e, net, render), net);
  }

  lemma PopStatePreserves(s: Session, pathname: string, href: string, net: Network, render: Render)
    requires Inv(s, net)
    ensures Inv(Apply(s, PopState(pathname, href), net, render), net)
    ensures Extends(s, Apply(s, PopState(pathname, href), net, render))
  {
    var step := Navigate(s.router, pathname, href, net, render);
    NavigateKeepsPaths(s.router, pathname, href, net, render, step);
    NavigateFillsOnlyCurrent(s.router, pathname, href, net, render, step);
    NavigateCacheDiscipline(s.router, pathname, href, net, render, step);
    FaithfulAgree(s.router.cache, step.state.cache, net, s.router.routerCreatedManually);
  }

  /** A step that only grows a faithful cache keeps the invariant and extends the session. */
  lemma CacheOnlyStepPreserves(s: Session, t: Session, net: Network)
    requires Inv(s, net)
    requires t.router.routes == s.router.routes
    requires t.router.routerCreatedManually == s.router.routerCreatedManually && t.router.hasHandler == s.router.hasHandler
    requires s.router.cache.Keys <= t.router.cache.Keys
    requires Faithful(t.router.cache, net, t.router.routerCreatedManually)
    ensures Inv(t, net) && Extends(s, t)
  {
    FaithfulAgree(s.router.cache, t.router.cache, net, s.router.routerCreatedManually);
  }

  /** Two faithful caches agree wherever both have an entry. */
  lemma FaithfulAgree(a: Cache, b: Cache, net: Network, routerCreatedManually: bool)
    requires Faithful(a, net, routerCreatedManually) && Faithful(b, net, routerCreatedManually)
    ensures forall h :: h in a && h in b ==> a[h] == b[h]
  {
    forall h | h in a && h in b
      ensures a[h] == b[h]
    {
      assert Success(a[h]) == FetchContent(net, h, routerCreatedManually).outcome == Success(b[h]);
    }
  }

  lemma ExtendsTransitive(s: Session, t: Session, u: Session)
    requires Extends(s, t) && Extends(t, u)
    ensures Extends(s, u)
  {
  }

  /** Any run keeps the invariant, keeps unique keys unique, and extends the
      session it started from. */
  lemma {:induction false} RunPreserves(s: Session, events: seq<Event>, net: Network, render: Render)
    requires Inv(s, net)
    ensures Inv(Run(s, events, net, render), net)
    ensures UniqueKeys(s.router.routes) ==> UniqueKeys(Run(s, events, net, render).router.routes)
    ensures Extends(s, Run(s, events, net, render))
    decreases |events|
  {
    if events != [] {
      var next := Apply(s, events[0], net, render);
      ApplyPreserves(s, events[0], net, render);
      if UniqueKeys(s.router.routes) {
        ApplyKeepsKeysUnique(s, events[0], net, render);
      }
      RunPreserves(next, events[1..], net, render);
      ExtendsTransitive(s, next, Run(next, events[1..], net, render));
    }
  }

  /** Over any run, whatever the network answers, non-empty cache entries stay as they are. */
  lemma {:induction false} RunKeepsHits(s: Session, events: seq<Event>, net: Network, render: Render)
    ensures KeepsHits(s.router.cache, Run(s, events, net, render).router.cache)
    decreases |events|
  {
    if events != [] {
      var next := Apply(s, events[0], net, render);
      ApplyKeepsHits(s, events[0], net, render);
      RunKeepsHits(next, events[1..], net, render);
    }
  }

  /** Navigating to a path, doing anything else, and navigating back sends no
      request and shows the markup rendered the first time, whatever query or
      fragment the second href carries. */
  lemma {:induction false} ReturnIsFree(s: Session, pathname: string, href: string, events: seq<Event>,
                                        pathname2: string, href2: string, net: Network, render: Render,
                                        first: Session, later: Session, back: Step)
    requires Inv(s, net)
    requires first == Apply(s, PopState(pathname, href), net, render)
    requires later == Run(first, events, net, render)
    requires back == Navigate(later.router, pathname2, href2, net, render)
    requires Normalize(pathname2) == Normalize(pathname)
    requires Populated(first.router.routes, Normalize(pathname))
    ensures back.sent == [] && back.completed
    ensures Find(back.state.routes, Normalize(pathname)) == Find(first.router.routes, Normalize(pathname))
    ensures back.state.routes[Find(first.router.routes, Normalize(pathname)).value].content
            == first.router.routes[Find(first.router.routes, Normalize(pathname)).value].content
  {
    var key := Normalize(pathname);
    ApplyPreserves(s, PopState(pathname, href), net, render);
    RunPreserves(first, events, net, render);
    FindStableUnderExtension(first.router.routes, later.router.routes, key);
    assert Populated(later.router.routes, key);
    NavigatePopulatedIsFree(later.router, pathname2, href2, net, render, back);
    NavigateFillsOnlyCurrent(later.router, pathname2, href2, net, render, back);
    NavigateKeepsPaths(later.router, pathname2, href2, net, render, back);
    FindStableUnderExtension(later.router.routes, back.state.routes, key);
  }

  /** A router synthesized on the client never sends the fragment POST: the
      first navigation to another path sends exactly one GET. */
  lemma SynthesizedRouterUsesGet(body: string, pathname: string, hasHandler: bool,
                                 pathname2: string, href: string, net: Network, render: Render)
    requires Normalize(pathname2) != pathname
    ensures var t := Navigate(Bootstrap(None, body, pathname, hasHandler), pathname2, href, net, render);
            t.sent == [PageRequest(href)]
  {
  }

  /** With a server-rendered router, an empty route is first requested as a
      fragment POST. */
  lemma ServerRouterPostsFirst(routes: seq<Route>, hasHandler: bool, pathname: string, href: string,
                               net: Network, render: Render)
    requires !Populated(routes, Normalize(pathname))
    ensures var t := Navigate(Bootstrap(Some(routes), "", "", hasHandler), pathname, href, net, render);
            |t.sent| >= 1 && t.sent[0] == FragmentRequest(href)
  {
    var s := Bootstrap(Some(routes), "", "", hasHandler);
    var t := Navigate(s, pathname, href, net, render);
    NavigateCacheDiscipline(s, pathname, href, net, render, t);
  }

  /** The bootstrap route is keyed by the raw pathname. When that has no
      trailing slash, navigating back to it reuses the route without a request. */
  lemma InitialRouteReused(body: string, pathname: string, hasHandler: bool, href: string,
                           net: Network, render: Render)
    requires body != "" && !EndsWith(pathname, "/")
    ensures var t := Navigate(Bootstrap(None, body, pathname, hasHandler), pathname, href, net, render);
            t.sent == [] && |t.state.routes| == 1 && t.state.routes[0].content == body
  {
    var s := Bootstrap(None, body, pathname, hasHandler);
    assert Normalize(pathname) == pathname;
    var t := Navigate(s, pathname, href, net, render);
    NavigatePopulatedIsFree(s, pathname, href, net, render, t);
    NavigateFillsOnlyCurrent(s, pathname, href, net, render, t);
  }

  /** When the initial pathname ends in a slash ("/" included), navigating back
      to it finds no route under the normalized key and appends a second one,
      fetching its content again. */
  lemma InitialRouteNotReusedAfterSlash(body: string, pathname: string, hasHandler: bool, href: string,
                                        net: Network, render: Render)
    requires EndsWith(pathname, "/")
    ensures var t := Navigate(Bootstrap(None, body, pathname, hasHandler), pathname, href, net, render);
            |t.state.routes| == 2 && t.state.routes[1].path + "/" == pathname && t.sent != []
  {
    var s := Bootstrap(None, body, pathname, hasHandler);
    var key := Normalize(pathname);
    assert key + "/" == pathname;
    assert Find(s.routes, key).None?;
    var t := Navigate(s, pathname, href, net, render);
    NavigateKeepsPaths(s, pathname, href, net, render, t);
    NavigateCacheDiscipline(s, pathname, href, net, render, t);
  }
}

=== FILE: text.dfy ===
/** String helpers with the meaning JavaScript gives them. */
module Text {

  /** `s.startsWith(prefix)` */
  predicate StartsWith(s: string, prefix: string) {
    |prefix| <= |s| && s[..|prefix|] == prefix
  }

  /** `s.endsWith(suffix)` */
  predicate EndsWith(s: string, suffix: string) {
    |suffix| <= |s| && s[|s| - |suffix|..] == suffix
  }

  predicate IsDigit(c: char) {
    '0' <= c <= '9'
  }

  predicate AllDigits(s: string) {
    forall i :: 0 <= i < |s| ==> IsDigit(s[i])
  }

  function DigitChar(d: nat): (c: char)
    requires d < 10
    ensures IsDigit(c)
    ensures c as int - '0' as int == d
  {
    ('0' as int + d) as char
  }

  /** The decimal text of a non-negative integer, as a template literal
      `${n}` prints it: at least one digit and no leading zero. */
  function Decimal(n: nat): (s: string)
    ensures 1 <= |s| && AllDigits(s)
    ensures s[0] == '0' ==> n == 0
    ensures n == 0 ==> |s| == 1
    decreases n
  {
    if n < 10 then [DigitChar(n)] else Decimal(n / 10) + [DigitChar(n % 10)]
  }

  /** The number a string of decimal digits denotes (the inverse of Decimal). */
  function DigitsValue(s: string): nat
    requires AllDigits(s)
    decreases |s|
  {
    if s == [] then 0
    else 10 * DigitsValue(s[..|s| - 1]) + (s[|s| - 1] as int - '0' as int)
  }

  /** Reading back the decimal text of `n` gives `n`. */
  lemma {:induction false} DecimalRoundTrip(n: nat)
    ensures DigitsValue(Decimal(n)) == n
    decreases n
  {
    if n >= 10 {
      var s := Decimal(n / 10);
      DecimalRoundTrip(n / 10);
      assert (s + [DigitChar(n % 10)])[..|s|] == s;
    }
  }
}

=== FILE: triggers.dfy ===
/** The decisions taken before the router calls into browser APIs:
    `handleLinkClick`, `observeLinks`, `handleLinkIntersection`, the
    `mouseover` filter and `handleLinkHover` (src/router.js). */
module Triggers {
  import opened Wrappers
  import opened LinkClassifier
  import opened ContentCache

  /** An element as the router reads it: the DOM node it is (two anchors with
      the same attributes are still two elements), its tag name, its `href`
      property ("" when absent), its `origin` property and its `prefetch` attribute. */
  datatype Element = Element(node: nat, tag: string, href: string, origin: string, prefetch: Option<string>)

  /** The page the decision is taken on: its URL, its origin, and how the URL
      constructor resolves an href against that origin (None when it throws). */
  datatype Page = Page(location: Url, origin: string, resolve: string -> Option<Url>)

  const AnchorTag: string := "A"
  const OnHover: string := "onHover"

  predicate IsAnchor(e: Element) {
    e.tag == AnchorTag
  }

  /** `isInternalLink(href)` on this page. */
  predicate Internal(page: Page, href: string) {
    IsInternalLink(href, page.resolve(href), page.location)
  }

  /** `target.closest("A")`: the first anchor on the path from the event
      target (index 0) up through its ancestors. */
  function ClosestAnchor(path: seq<Element>): (a: Option<Element>)
    ensures a.None? <==> forall i :: 0 <= i < |path| ==> !IsAnchor(path[i])
    ensures a.Some? ==> IsAnchor(a.value)
    ensures a.Some? ==> exists i :: 0 <= i < |path| && path[i] == a.value
                                    && forall j :: 0 <= j < i ==> !IsAnchor(path[j])
    decreases |path|
  {
    if path == [] then None
    else if IsAnchor(path[0]) then Some(path[0])
    else
      var rest := ClosestAnchor(path[1..]);
      if rest.Some? then
        var i :| 0 <= i < |path[1..]| && path[1..][i] == rest.value
                 && forall j :: 0 <= j < i ==> !IsAnchor(path[1..][j]);
        assert path[i + 1] == rest.value;
        rest
      else rest
  }

  /** What a click does: nothing, or suppress the default action, push `href`
      on the session history and raise a synthetic popstate. */
  datatype ClickEffect = Ignored | Intercepted(href: string)

  /** `handleLinkClick`: intercepted exactly when there is an enclosing anchor
      with a non-empty href that is internal and whose origin is the page's. */
  function HandleClick(page: Page, path: seq<Element>): (e: ClickEffect)
    ensures e.Intercepted? <==> (ClosestAnchor(path).Some? && ClosestAnchor(path).value.href != ""
                                 && Internal(page, ClosestAnchor(path).value.href)
                                 && ClosestAnchor(path).value.origin == page.origin)
    ensures e.Intercepted? ==> e.href == ClosestAnchor(path).value.href && e.href != ""
  {
    match ClosestAnchor(path)
    case None => Ignored
    case Some(link) =>
      if link.href == "" || !Internal(page, link.href) || link.origin != page.origin then Ignored
      else Intercepted(link.href)
  }

  /** A click on an anchor of another origin is never intercepted, even when
      its href is protocol-relative and so passes the internal test. */
  lemma OtherOriginIsIgnored(page: Page, path: seq<Element>)
    requires ClosestAnchor(path).Some? && ClosestAnchor(path).value.origin != page.origin
    ensures HandleClick(page, path) == Ignored
  {
  }

  /** A click on an anchor whose absolute href names another site is never
      intercepted: no default is prevented and no history entry is pushed. */
  lemma ExternalHostIsIgnored(page: Page, path: seq<Element>)
    requires ClosestAnchor(path).Some?
    requires !RootRelative(ClosestAnchor(path).value.href)
    requires page.resolve(ClosestAnchor(path).value.href).Some?
    requires !SameSite(page.resolve(ClosestAnchor(path).value.href).value, page.location)
    ensures HandleClick(page, path) == Ignored
  {
  }

  /** A link is put under visibility observation when it has not opted into
      hover prefetch, the user agent does not ask to save data, and it is internal. */
  predicate ShouldObserve(page: Page, link: Element, saveData: bool) {
    link.prefetch != Some(OnHover) && !saveData && Internal(page, link.href)
  }

  /** `observeLinks`: the links handed to the observer, in document order. */
  function ObserveLinks(page: Page, links: seq<Element>, saveData: bool): (observed: seq<Element>)
    ensures |observed| <= |links|
    ensures forall e :: e in observed <==> e in links && ShouldObserve(page, e, saveData)
    ensures saveData ==> observed == []
    decreases |links|
  {
    if links == [] then []
    else
      var rest := ObserveLinks(page, links[1..], saveData);
      assert forall e :: e in links <==> e == links[0] || e in links[1..];
      if ShouldObserve(page, links[0], saveData) then [links[0]] + rest else rest
  }

  /** An intersection observer entry. */
  datatype Entry = Entry(target: Element, isIntersecting: bool)

  /** The entries the observer hands to its callback: only those whose target
      is under observation when the callback runs, in order. */
  function Delivered(entries: seq<Entry>, observed: set<Element>): (d: seq<Entry>)
    ensures |d| <= |entries|
    ensures forall en :: en in d <==> en in entries && en.target in observed
    decreases |entries|
  {
    if entries == [] then []
    else
      var rest := Delivered(entries[1..], observed);
      assert forall en :: en in entries <==> en == entries[0] || en in entries[1..];
      if entries[0].target in observed then [entries[0]] + rest else rest
  }

  /** What one observer callback does: the hrefs whose prefetch it starts, in
      order, and the links still observed afterwards. */
  datatype Intersection = Intersection(started: seq<string>, observed: set<Element>)

  /** `handleLinkIntersection`. Every cache test in one callback sees the cache
      as it was when the callback began: the prefetches it starts only write
      after their fetches settle. An intersecting uncached link has its
      prefetch started and is unobserved; a cached one stays observed. */
  function HandleIntersection(entries: seq<Entry>, observed: set<Element>, cache: Cache): (r: Intersection)
    ensures r.observed <= observed
    ensures |r.started| <= |entries|
    ensures forall h :: h in r.started ==> !Hit(cache, h)
    ensures forall i :: 0 <= i < |entries| && entries[i].isIntersecting && !Hit(cache, entries[i].target.href)
              ==> entries[i].target.href in r.started && entries[i].target !in r.observed
    ensures forall e :: e in observed && Hit(cache, e.href) ==> e in r.observed
    ensures forall e :: e in observed && e !in r.observed
              ==> exists i :: 0 <= i < |entries| && entries[i].target == e && entries[i].isIntersecting
    ensures forall h :: h in r.started
              ==> exists i :: 0 <= i < |entries| && entries[i].target.href == h && entries[i].isIntersecting
    decreases |entries|
  {
    if entries == [] then Intersection([], observed)
    else
      var entry := entries[0];
      var now := if entry.isIntersecting && !Hit(cache, entry.target.href)
                 then Intersection([entry.target.href], observed - {entry.target})
                 else Intersection([], observed);
      var rest := HandleIntersection(entries[1..], now.observed, cache);
      assert forall i :: 1 <= i < |entries| ==> entries[i] == entries[1..][i - 1];
      Intersection(now.started + rest.started, rest.observed)
  }

  /** The delegated `mouseover` listener reacts to an anchor element itself
      (not to its descendants) that carries `prefetch="onHover"`. */
  predicate HoverTarget(target: Element) {
    IsAnchor(target) && target.prefetch == Some(OnHover)
  }

  /** The listener followed by `handleLinkHover`: a prefetch is started for a
      hover-prefetch anchor whose href is uncached and internal. */
  predicate HoverPrefetches(page: Page, target: Element, cache: Cache) {
    HoverTarget(target) && !Hit(cache, target.href) && Internal(page, target.href)
  }

  /** Hover and visibility prefetch are disjoint: a link that opts into one is
      never under the other. */
  lemma HoverLinksAreNotObserved(page: Page, links: seq<Element>, saveData: bool, target: Element)
    requires HoverTarget(target)
    ensures target !in ObserveLinks(page, links, saveData)
  {
  }
}

=== FILE: wrappers.dfy ===
/** The plain Option and Result datatypes shared by the router model. */
module Wrappers {

  /** A value that may be absent: a DOM attribute that is not set, a URL that
      does not parse, a route that is not in the store. */
  datatype Option<+T> = None | Some(value: T)

  /** The settlement of an asynchronous operation: it fulfils with a value or
      rejects with an error. */
  datatype Result<+T, +E> = Success(value: T) | Failure(error: E)
}
